=== FILE: README.md ===
# Kuroma site core, modelled in Dafny

Kuroma's marketing site holds four pieces of logic. This project models each one as pure Dafny functions over explicit inputs and proves their contracts.

- **Intent proxy** (`POST /api/intent`). It parses the body and requires a non-blank `prompt`. It forwards the trimmed prompt to the Kuroma intent service. If the service's reply text is not JSON, the text itself becomes the payload. The route then returns that payload as it is (200), or wraps it in an error envelope (502 for a non-2xx status, 500 when the service cannot be reached).
- **Waitlist proxy** (`POST /api/waitlist`). Its checks run in a fixed order: JSON body, email present, email contains `@` and `.`, store configured. Only then does it insert the trimmed address into the store's `waitlist` table. No reply ever echoes what the store said.
- **Response normaliser** (the demo page). It tests the intent against the playlist allow-list. It picks the playlist title (`title`, then `name`, then a fallback) and the track URLs (`spotifyUrl` before `spotify_url`, `previewUrl` before `preview_url`). It reads the stored JSON result as a typed view, losing no field. Guards decide whether the playlist card, the "no playlist" note or neither is shown.
- **Client submit transitions** (the demo and waitlist pages). Each maps the outcome of the page's `fetch` to the page's next state.

The module-level environment reads become `Env` records. The parsed request body is an `Option` (None when the body is not JSON). Each outbound call's answer is a parameter: `Unreachable(message)` or `Responded(status, text)`. `JSON.parse` is a parameter `decode: string -> Option<Json>`. Each handler returns a `Handled` record: the outbound request it made, if any, plus its `Response`. So "no outbound call" can be stated directly.

Files:

- `js_value.dfy` (`JsValue`): JSON values, truthiness, `??`, `a || b`, and reading a property.
- `js_text.dfy` (`JsText`): `trim` with the full ECMAScript white-space set, ASCII `toLowerCase`, and the `field?.trim()` / `if (!field)` idiom.
- `http.dfy` (`Http`): responses, outbound requests, upstream answers, and what a page's `fetch` sees.
- `intent_route.dfy`, `waitlist_route.dfy`: the two handlers.
- `demo_page.dfy`, `waitlist_page.dfy`: the two pages.
- `end_to_end.dfy`: each page fed by its route.

Three behaviours of the code that are easy to misread:

- The intent route has no missing-URL check. The URL falls back to `https://ai.kuroma.in/chat`, and an empty variable is kept as is (`??`).
- The intent route's outbound body is exactly `{ text }`.
- An empty `title` does not fall through to `name`. It yields the fallback `Generated playlist` (`DemoPage.EmptyTitleHidesName`).

## Model

| member | source | states |
|---|---|---|
| JsText.Trim | app/api/intent/route.ts:23 | `trim()` returns a string no longer than its input that is empty or begins and ends with a non-white-space character |
| JsText.TrimIsSlice | app/api/waitlist/route.ts:22 | `trim()` removes only white space: its result is the slice of the input after the leading white space, and only white space follows it |
| JsText.TrimEmptyIffBlank | app/api/intent/route.ts:23-24 | a trimmed string is empty exactly when the input is all white space, so `!prompt` after `trim()` means blank |
| JsText.TrimOfPadded | app/api/waitlist/route.ts:22 | trimming removes exactly the white space padded around a string that neither begins nor ends with white space |
| JsText.RequiredTrimmed | app/api/waitlist/route.ts:22-29 | `field?.trim()` followed by `if (!field)` rejects exactly an absent or all-white-space field; otherwise it yields the non-empty trimmed value |
| JsText.ToLower | app/demo/page.tsx:96 | lower-casing keeps the length, folds each character, and leaves no upper-case ASCII letter |
| JsValue.Member | app/demo/page.tsx:79 | reading `data.error`, the one key the pages read, throws exactly on `null`, yields a value exactly for an object carrying the key, and `undefined` otherwise; the same holds for `status`, `upstream` and `details`, which only the contracts describing the intent route's error bodies read back |
| JsValue.Coalesce | app/api/intent/route.ts:4 | `a ?? b` is `a` whenever `a` is present, else `b`; the result is present iff either operand is |
| JsValue.OrElse | app/waitlist/page.tsx:27 | the `data.error` read with a fallback is the read value when truthy, else the fallback; with a truthy fallback the result is always truthy |
| IntentRoute.ApiUrl | app/api/intent/route.ts:3-4 | the service URL is the environment value whenever it is set (even when empty), else `https://ai.kuroma.in/chat` |
| IntentRoute.ApiKey | app/api/intent/route.ts:5 | the key is non-empty exactly when the environment value is set and non-empty, and then equals it |
| IntentRoute.UpstreamRequest | app/api/intent/route.ts:33-40 | the call is a POST to the configured URL with body exactly `{ text: prompt }`; `Authorization` is present iff the key is non-empty, and then it is `"Bearer " + key` |
| IntentRoute.DecodeOrRaw | app/api/intent/route.ts:42-48 | the payload is the decoded JSON when decoding succeeds, else the raw text as a string |
| IntentRoute.ReplyTo | app/api/intent/route.ts:50-71 | 2xx gives 200 with exactly the payload; non-2xx gives 502 with only `error`, `status` (the upstream status) and `upstream` (the payload); unreachable gives 500 with only `error` and `details` (the failure message) |
| IntentRoute.Post | app/api/intent/route.ts:11-73 | a non-JSON body gives 400 "Invalid request body (must be JSON)." with no call; an absent or blank prompt gives 400 "Prompt is required." with no call; otherwise the trimmed prompt is forwarded and the reply follows `ReplyTo`; no call happens exactly when the status is 400; every non-200 reply carries one of the four error strings |
| IntentRoute.NonJsonReplyPassesThrough | app/api/intent/route.ts:42-62 | undecodable text with a 2xx status gives 200 with that text as the body, never an error |
| IntentRoute.SurroundingWhiteSpaceIgnored | app/api/intent/route.ts:23-40 | white space around the prompt changes neither the outbound call nor the reply |
| WaitlistRoute.InsertRequest | app/api/waitlist/route.ts:47-56 | the insert is a POST to `URL + "/rest/v1/waitlist"` with body exactly `{ email }`; `apikey` carries the service key and `Authorization` carries `"Bearer " + key` |
| WaitlistRoute.ReplyTo | app/api/waitlist/route.ts:58-75 | a 2xx store answer gives 200 `{ success: true }`; a non-2xx answer gives 500 "Could not save your email. Try again later."; an unreachable store gives 500 "Could not reach database. Try again later." |
| WaitlistRoute.Post | app/api/waitlist/route.ts:10-76 | checks run in order (JSON, email present, `@` and `.`, configuration) with their fixed 400/500 messages and no store call; the insert is made only when configured; the reply is 200 exactly when the store call was made and answered 2xx; every other reply carries one of the six error strings |
| WaitlistRoute.BadEmailIgnoresConfiguration | app/api/waitlist/route.ts:31-44 | an address without `@` or `.` gets the same 400 and no call whatever the configuration and the store |
| WaitlistRoute.StoreTextNeverEchoed | app/api/waitlist/route.ts:58-65 | two store answers with the same status and different text give the same result |
| DemoPage.PlaylistIntentIff | app/demo/page.tsx:93-97 | the allow-list test holds iff the lower-cased intent is `playlist_from_prompt` or `playlist`; the upper-cased entry never matches |
| DemoPage.SelectPlaylist | app/demo/page.tsx:99 | a playlist is selected iff there is a result whose intent passes the test and whose `playlist` is present, and then it is that playlist |
| DemoPage.OtherIntentHasNoPlaylist | app/demo/page.tsx:93-99 | any other intent selects no playlist, whatever the `playlist` field holds |
| DemoPage.PlaylistTitle | app/demo/page.tsx:102-105 | the title is never empty; a non-empty `title` wins; `name` is used only when `title` is absent; any other outcome is "Generated playlist" |
| DemoPage.EmptyTitleHidesName | app/demo/page.tsx:104 | an empty `title` gives the fallback even when `name` is non-empty |
| DemoPage.SpotifyUrl | app/demo/page.tsx:107-109 | `spotifyUrl` wins whenever present, even when `spotify_url` differs; only otherwise `spotify_url` is used |
| DemoPage.PreviewUrl | app/demo/page.tsx:111-113 | `previewUrl` wins whenever present; only otherwise `preview_url` is used |
| DemoPage.EitherSpellingResolves | app/demo/page.tsx:107-113 | a track carrying only one spelling of a URL field resolves to that value |
| DemoPage.TrackRows | app/demo/page.tsx:170-181 | one line per track, in the original order, the line for track `i` numbered `first + i` |
| DemoPage.RenderResult | app/demo/page.tsx:146-231 | the result section exists iff there is a result; the card shows iff the selected playlist is present with non-empty tracks; the note shows iff no playlist is selected; never both; the card carries the playlist title, the description only when truthy, and exactly the track lines of `TrackRows` numbered from 1, each with its artist, album and resolved audio and link URLs |
| DemoPage.EmptyPlaylistShowsNothing | app/demo/page.tsx:158-222 | a selected playlist with absent or empty tracks shows neither the card nor the note |
| DemoPage.InitiallyIdle | app/demo/page.tsx:58-61 | the page starts with an empty prompt, no request in flight (button enabled), no error and no result, so no result section is rendered |
| DemoPage.ResultView | app/demo/page.tsx:83 | the stored `result` read as `KuromaResponse`: `null` is no result; otherwise the intent, the playlist (present iff the field is neither absent nor `null`), its title, name, description and tracks field by field, absent and `null` alike read as absent, and every other field kept in `extra` |
| DemoPage.ResultRoundTrip | app/demo/page.tsx:5-56 | reading loses nothing: any typed view whose pass-through fields avoid the interpreted keys, written as JSON, fits the declared shape and reads back as itself |
| DemoPage.SubmitThenRender | app/demo/page.tsx:83-146 | after a submission the stored result still fits the typed shape, the result section is rendered exactly when a 2xx answer carried a non-null body, and never while an error is shown |
| DemoPage.StartSubmit | app/demo/page.tsx:63-67 | submitting clears the error and the result and disables the button |
| DemoPage.Submit | app/demo/page.tsx:63-89 | after every path `loading` is false; a thrown fetch or parse gives "Network error. Try again."; a non-ok reply gives `data.error`, or "Something went wrong." when falsy, and no result; an ok reply stores `data` as the result with no error |
| WaitlistPage.InitiallyIdle | app/waitlist/page.tsx:7-9 | the page starts with an empty email field, status idle (button enabled) and an empty message, which is not shown |
| WaitlistPage.StartSubmit | app/waitlist/page.tsx:10-14 | submitting sets status loading, which disables the button, and clears the message |
| WaitlistPage.Submit | app/waitlist/page.tsx:10-38 | status becomes success iff the reply is ok and its body parses; success sets the thank-you message and clears the email; a non-ok reply gives `data.error`, or "Something went wrong. Try again." when falsy; a thrown fetch or parse gives the network message; the email is kept on every error path; the button is enabled again |
| EndToEnd.WaitlistPageShowsRouteOutcome | app/waitlist/page.tsx:16-37 | fed by the waitlist route, the page reports success exactly when the store saved the address; otherwise it shows the route's error string and keeps the email |
| EndToEnd.DemoPageShowsRouteOutcome | app/demo/page.tsx:69-85 | fed by the intent route, the page holds the payload exactly when the route replied 200; otherwise it shows the route's error string with no result |
| EndToEnd.BlankPromptStaysLocal | app/api/intent/route.ts:23-29 | a blank prompt makes no call to the intent service, and the demo page shows "Prompt is required." |
| EndToEnd.JsonAnswerReachesPage | app/api/intent/route.ts:31-62 | for a non-blank prompt and a 2xx JSON answer, the trimmed prompt is forwarded, the route replies 200 with that JSON unchanged, and the demo page holds it as its result |
| EndToEnd.LofiPlaylistRenders | app/demo/page.tsx:83-181 | when the intent service answers 2xx with the JSON of a `playlist` intent whose playlist is titled "Lofi" with one track, the page stores it, reads it as a typed view, and renders that title and one line numbered 1 with the track's title and artist, and no note |
| EndToEnd.UpperCaseIntentWithName | app/demo/page.tsx:93-104 | an upper-case `PLAYLIST_FROM_PROMPT` intent selects the playlist, and a playlist carrying only `name` is titled by it |

## Left out

- JsText.ToLower: folds ASCII letters only, while `toLowerCase` folds all of Unicode. For the allow-list test this makes no difference: no other character lower-cases to a string made of the letters of `playlist_from_prompt`.
- `fetch`, `NextResponse.json`, `req.json()`, `res.json()`, `res.text()` and `JSON.parse`/`JSON.stringify` are foreign library calls. They appear as parameters (`Option` bodies, `Upstream`, `Delivery`, `decode`). The end-to-end lemmas take it that `NextResponse.json` followed by `res.json()` hands the page the same JSON value.
- A failure while reading the upstream reply text falls in the same `catch` as a failed `fetch` in both routes. It is folded into `Unreachable`.
- Intent route: `details` is `String(err?.message ?? err)`. The model takes the already-stringified message as its parameter.
- `console.log`/`console.error` diagnostics are side effects with no observable contract.
- The confidence percentage `(confidence * 100).toFixed(0)` is floating-point formatting. `confidence` is carried among a response's pass-through fields.
- Runtime TypeErrors outside the handlers' `try` blocks are not modelled. Examples: a JSON body of `null`, or a non-string `prompt`/`email` reaching `.trim()`. The request bodies are records with an optional string field.
- The demo page's `data as KuromaResponse` is an unchecked cast. `DemoPage.ResultView` reads only results of the declared shape (`DemoPage.Fits`) into the typed view. Some other shapes throw during render, such as a non-string `intent` or a `null` track. Others render without error and are not modelled either, such as a track without `artist` or a numeric `title`.
- The distinction between `null` and `undefined` is not modelled. Every operator the code applies to optional fields (`??`, `?.`, truthiness) treats them alike.
- React hooks, update batching, JSX markup, `<audio>`/link markup and CSS classes are UI. Each submit is modelled as the state after the handler finishes, plus the in-flight state.
- Store-side behaviour, such as duplicate emails, is delegated to the external store.
- Static pages, layout, navigation bar and footer contain no logic.
- JsValue.Member: defined only for `error`, the key the pages read, and for `status`, `upstream` and `details`, which only the contracts about the intent route's error bodies read back. A general property read would also have to model inherited properties such as `length` or `constructor`.
- The demo page's raw `JSON.stringify(result, null, 2)` dump is formatting, and it is the only place where the order of an object's keys shows. JSON objects are maps here.

=== FILE: demo_page.dfy ===
/**
 * The intent demo page: the state its form submission moves through, and the
 * normalisation that turns an intent-service response (old and new field
 * names alike) into the playlist view it renders.
 */
module DemoPage {
  import opened JsValue
  import opened JsText
  import opened Http

  const FallbackTitle: string := "Generated playlist"
  const SomethingWentWrong: string := "Something went wrong."
  const NetworkError: string := "Network error. Try again."

  /** The intents that produce a playlist, as listed in the page. The third
      entry is `"playlist_from_prompt".toUpperCase()`. */
  const PlaylistIntents: seq<string> := ["playlist_from_prompt", "playlist", "PLAYLIST_FROM_PROMPT"]

  /** A track as either backend sends it: `spotifyUrl`/`previewUrl` (newer)
      or `spotify_url`/`preview_url` (older); `extra` holds every other field,
      kept but not interpreted. */
  datatype Track = Track(
    title: string,
    artist: string,
    album: Option<string>,
    spotifyUrl: Option<string>,
    previewUrl: Option<string>,
    spotify_url: Option<string>,
    preview_url: Option<string>,
    extra: map<string, Json>)

  /** A playlist as either backend sends it: `title` (older) or `name`
      (newer). `tracks` is declared required, yet the page checks it before use. */
  datatype Playlist = Playlist(
    title: Option<string>,
    name: Option<string>,
    description: Option<string>,
    tracks: Option<seq<Track>>,
    extra: map<string, Json>)

  /** The typed view of a decoded response; `extra` holds `query`,
      `entities`, `confidence` and every other field, passed through. */
  datatype KuromaResponse = KuromaResponse(intent: string, playlist: Option<Playlist>, extra: map<string, Json>)

  // ---------------------------------------------------------------------
  // Normalisation

  /** `isPlaylistIntent`: the lower-cased intent is one of the listed ones. */
  predicate IsPlaylistIntent(intent: string) {
    ToLower(intent) in PlaylistIntents
  }

  /** The upper-case entry of the list can never match: a lower-cased intent
      holds no upper-case letter. So the test is a case-insensitive match
      against the two lower-case entries only. */
  lemma PlaylistIntentIff(intent: string)
    ensures IsPlaylistIntent(intent) <==>
              ToLower(intent) == "playlist_from_prompt" || ToLower(intent) == "playlist"
  {
    var lower := ToLower(intent);
    assert lower != "PLAYLIST_FROM_PROMPT" by {
      if |lower| > 0 {
        assert !IsAsciiUpper(lower[0]);
      }
    }
  }

  /** `isPlaylistIntent ? result?.playlist ?? null : null`. */
  function SelectPlaylist(result: Option<KuromaResponse>): (p: Option<Playlist>)
    ensures p.Some? <==> result.Some? && IsPlaylistIntent(result.value.intent) && result.value.playlist.Some?
    ensures p.Some? ==> p == result.value.playlist
  {
    match result
    case None => None
    case Some(res) => if IsPlaylistIntent(res.intent) then res.playlist else None
  }

  /** A response whose intent is not a playlist intent never yields a
      playlist, whatever its `playlist` field holds. */
  lemma OtherIntentHasNoPlaylist(res: KuromaResponse)
    requires ToLower(res.intent) != "playlist_from_prompt" && ToLower(res.intent) != "playlist"
    ensures SelectPlaylist(Some(res)) == None
  {
    PlaylistIntentIff(res.intent);
  }

  /** `getPlaylistTitle`: `title ?? name ?? fallback`, and the fallback again
      if that is empty. An empty `title` is present, so `name` is not
      consulted for it. */
  function PlaylistTitle(p: Option<Playlist>): (t: string)
    ensures t != ""
    ensures p.None? ==> t == FallbackTitle
    ensures p.Some? && NonEmpty(p.value.title) ==> t == p.value.title.value
    ensures p.Some? && p.value.title.None? && NonEmpty(p.value.name) ==> t == p.value.name.value
    ensures t != FallbackTitle ==>
              p.Some? && ((NonEmpty(p.value.title) && t == p.value.title.value) ||
                          (p.value.title.None? && NonEmpty(p.value.name) && t == p.value.name.value))
  {
    match p
    case None => FallbackTitle
    case Some(pl) =>
      var chosen := Coalesce(Coalesce(pl.title, pl.name), Some(FallbackTitle)).value;
      if chosen != "" then chosen else FallbackTitle
  }

  /** An empty `title` is present for `??`, so it hides a usable `name` and
      the fallback is shown. */
  lemma EmptyTitleHidesName(description: Option<string>, tracks: Option<seq<Track>>,
                            extra: map<string, Json>, name: string)
    requires name != ""
    ensures PlaylistTitle(Some(Playlist(Some(""), Some(name), description, tracks, extra))) == FallbackTitle
  {
  }

  /** `getSpotifyUrl`: `spotifyUrl ?? spotify_url`. */
  function SpotifyUrl(t: Track): (u: Option<string>)
    ensures t.spotifyUrl.Some? ==> u == t.spotifyUrl
    ensures t.spotifyUrl.None? ==> u == t.spotify_url
  {
    Coalesce(t.spotifyUrl, t.spotify_url)
  }

  /** `getPreviewUrl`: `previewUrl ?? preview_url`. */
  function PreviewUrl(t: Track): (u: Option<string>)
    ensures t.previewUrl.Some? ==> u == t.previewUrl
    ensures t.previewUrl.None? ==> u == t.preview_url
  {
    Coalesce(t.previewUrl, t.preview_url)
  }

  /** Only a field of the shape a track actually carries decides its link:
      a track sending one spelling is read the same as a track sending the
      other. */
  lemma EitherSpellingResolves(t: Track, url: string, preview: string)
    ensures SpotifyUrl(t.(spotifyUrl := Some(url), spotify_url := None)) == Some(url)
    ensures SpotifyUrl(t.(spotifyUrl := None, spotify_url := Some(url))) == Some(url)
    ensures PreviewUrl(t.(previewUrl := Some(preview), preview_url := None)) == Some(preview)
    ensures PreviewUrl(t.(previewUrl := None, preview_url := Some(preview))) == Some(preview)
  {
  }

  // ---------------------------------------------------------------------
  // Rendering

  /** One rendered track line: its 1-based number, title, artist, album,
      and the audio player and Spotify link when their URLs are truthy. */
  datatype Row = Row(number: nat, title: string, artist: string, album: Option<string>,
                     audio: Option<string>, link: Option<string>)

  function RowFor(t: Track, number: nat): Row {
    var preview := PreviewUrl(t);
    var spotify := SpotifyUrl(t);
    Row(number, t.title, t.artist, t.album,
        if NonEmpty(preview) then preview else None,
        if NonEmpty(spotify) then spotify else None)
  }

  /** `tracks.map((t, idx) => ...)` with lines numbered from `first`: one
      line per track, in the original order. */
  function TrackRows(tracks: seq<Track>, first: nat): (rows: seq<Row>)
    ensures |rows| == |tracks|
    ensures forall i :: 0 <= i < |tracks| ==> rows[i] == RowFor(tracks[i], first + i)
    decreases |tracks|
  {
    if tracks == [] then [] else [RowFor(tracks[0], first)] + TrackRows(tracks[1..], first + 1)
  }

  /** The playlist card: title, description when truthy, track lines. */
  datatype Card = Card(title: string, description: Option<string>, rows: seq<Row>)

  /** The result section: the intent, the playlist card if shown, and whether
      the "No playlist produced" note is shown. */
  datatype Summary = Summary(intent: string, card: Option<Card>, noPlaylistNote: bool)

  /** The result section for the current `result` (None when there is none),
      following the guards `playlist && playlist.tracks && playlist.tracks.length > 0`
      and `!playlist`. */
  function RenderResult(result: Option<KuromaResponse>): (v: Option<Summary>)
    ensures v.Some? <==> result.Some?
    ensures v.Some? ==> v.value.intent == result.value.intent
    ensures v.Some? ==>
              var p := SelectPlaylist(result);
              && (v.value.card.Some? <==> p.Some? && p.value.tracks.Some? && |p.value.tracks.value| > 0)
              && (v.value.noPlaylistNote <==> p.None?)
              && !(v.value.card.Some? && v.value.noPlaylistNote)
    ensures v.Some? && v.value.card.Some? ==>
              var p := SelectPlaylist(result).value;
              var rows := v.value.card.value.rows;
              && v.value.card.value.title == PlaylistTitle(Some(p))
              && v.value.card.value.description == (if NonEmpty(p.description) then p.description else None)
              && rows == TrackRows(p.tracks.value, 1)
              && |rows| == |p.tracks.value|
              && (forall i :: 0 <= i < |rows| ==> rows[i].number == i + 1 && rows[i].title == p.tracks.value[i].title)
  {
    match result
    case None => None
    case Some(res) =>
      var playlist := SelectPlaylist(result);
      var card :=
        if playlist.Some? && playlist.value.tracks.Some? && |playlist.value.tracks.value| > 0 then
          var p := playlist.value;
          Some(Card(PlaylistTitle(playlist),
                    if NonEmpty(p.description) then p.description else None,
                    TrackRows(p.tracks.value, 1)))
        else None;
      Some(Summary(res.intent, card, playlist.None?))
  }

  /** A playlist that is present but has no tracks shows neither the card
      nor the note. */
  lemma EmptyPlaylistShowsNothing(res: KuromaResponse)
    requires IsPlaylistIntent(res.intent)
    requires res.playlist.Some? && (res.playlist.value.tracks.None? || res.playlist.value.tracks.value == [])
    ensures RenderResult(Some(res)).value.card.None?
    ensures !RenderResult(Some(res)).value.noPlaylistNote
  {
  }

  // ---------------------------------------------------------------------
  // Reading the stored result

  /** A field the typed view declares as an optional string: absent, `null`
      or a string. */
  predicate OptionalString(fields: map<string, Json>, key: string) {
    key !in fields || fields[key].JNull? || fields[key].JString?
  }

  /** A field the typed view declares as a required string. */
  predicate RequiredString(fields: map<string, Json>, key: string) {
    key in fields && fields[key].JString?
  }

  /** An optional string field as the page reads it: absent and `null` alike
      are None. */
  function StringField(fields: map<string, Json>, key: string): (o: Option<string>)
    requires OptionalString(fields, key)
    ensures o.Some? <==> key in fields && fields[key].JString?
    ensures o.Some? ==> fields[key] == JString(o.value)
  {
    if key in fields && fields[key].JString? then Some(fields[key].s) else None
  }

  /** A field that is present and not `null`. */
  predicate Present(fields: map<string, Json>, key: string) {
    key in fields && !fields[key].JNull?
  }

  const TrackKeys: set<string> :=
    {"title", "artist", "album", "spotifyUrl", "previewUrl", "spotify_url", "preview_url"}
  const PlaylistKeys: set<string> := {"title", "name", "description", "tracks"}
  const ResponseKeys: set<string> := {"intent", "playlist"}

  /** A decoded value of the shape `KuromaTrack`. */
  predicate TrackFits(j: Json) {
    && j.JObject?
    && RequiredString(j.fields, "title") && RequiredString(j.fields, "artist")
    && OptionalString(j.fields, "album")
    && OptionalString(j.fields, "spotifyUrl") && OptionalString(j.fields, "previewUrl")
    && OptionalString(j.fields, "spotify_url") && OptionalString(j.fields, "preview_url")
  }

  /** A decoded value of the shape `KuromaPlaylist`. `tracks` may be missing
      or `null`, which the page's guard tolerates. */
  predicate PlaylistFits(j: Json) {
    && j.JObject?
    && OptionalString(j.fields, "title") && OptionalString(j.fields, "name")
    && OptionalString(j.fields, "description")
    && (Present(j.fields, "tracks") ==>
          && j.fields["tracks"].JArray?
          && forall i :: 0 <= i < |j.fields["tracks"].items| ==> TrackFits(j.fields["tracks"].items[i]))
  }

  /** A decoded value of the shape `KuromaResponse`, as far as the page reads
      it: a string `intent` and an optional playlist. */
  predicate Fits(j: Json) {
    && j.JObject?
    && RequiredString(j.fields, "intent")
    && (Present(j.fields, "playlist") ==> PlaylistFits(j.fields["playlist"]))
  }

  /** A decoded track read field by field. */
  function TrackView(j: Json): (t: Track)
    requires TrackFits(j)
    ensures JString(t.title) == j.fields["title"] && JString(t.artist) == j.fields["artist"]
    ensures t.album == StringField(j.fields, "album")
    ensures t.spotifyUrl == StringField(j.fields, "spotifyUrl")
    ensures t.previewUrl == StringField(j.fields, "previewUrl")
    ensures t.spotify_url == StringField(j.fields, "spotify_url")
    ensures t.preview_url == StringField(j.fields, "preview_url")
    ensures t.extra.Keys !! TrackKeys
    ensures forall k :: k in j.fields && k !in TrackKeys ==> k in t.extra && t.extra[k] == j.fields[k]
  {
    var f := j.fields;
    Track(f["title"].s, f["artist"].s, StringField(f, "album"),
          StringField(f, "spotifyUrl"), StringField(f, "previewUrl"),
          StringField(f, "spotify_url"), StringField(f, "preview_url"),
          f - TrackKeys)
  }

  /** A decoded playlist read field by field, its tracks in order. */
  function PlaylistView(j: Json): (p: Playlist)
    requires PlaylistFits(j)
    ensures p.title == StringField(j.fields, "title") && p.name == StringField(j.fields, "name")
    ensures p.description == StringField(j.fields, "description")
    ensures p.tracks.Some? <==> Present(j.fields, "tracks")
    ensures p.tracks.Some? ==>
              var items := j.fields["tracks"].items;
              && |p.tracks.value| == |items|
              && forall i :: 0 <= i < |items| ==> p.tracks.value[i] == TrackView(items[i])
    ensures p.extra.Keys !! PlaylistKeys
    ensures forall k :: k in j.fields && k !in PlaylistKeys ==> k in p.extra && p.extra[k] == j.fields[k]
  {
    var f := j.fields;
    var tracks :=
      if Present(f, "tracks") then
        var items := f["tracks"].items;
        Some(seq(|items|, i requires 0 <= i < |items| => TrackView(items[i])))
      else None;
    Playlist(StringField(f, "title"), StringField(f, "name"), StringField(f, "description"),
             tracks, f - PlaylistKeys)
  }

  /** `data as KuromaResponse` for the stored `result`: `null` is no result,
      and a value of the declared shape is read field by field, the fields
      the page does not interpret kept as they are. */
  function ResultView(j: Json): (v: Option<KuromaResponse>)
    requires j.JNull? || Fits(j)
    ensures v.None? <==> j.JNull?
    ensures v.Some? ==> JString(v.value.intent) == j.fields["intent"]
    ensures v.Some? ==> (v.value.playlist.Some? <==> Present(j.fields, "playlist"))
    ensures v.Some? && v.value.playlist.Some? ==> v.value.playlist.value == PlaylistView(j.fields["playlist"])
    ensures v.Some? ==> v.value.extra.Keys !! ResponseKeys
    ensures v.Some? ==>
              forall k :: k in j.fields && k !in ResponseKeys ==> k in v.value.extra && v.value.extra[k] == j.fields[k]
  {
    if j.JNull? then None
    else
      var f := j.fields;
      Some(KuromaResponse(f["intent"].s,
                          if Present(f, "playlist") then Some(PlaylistView(f["playlist"])) else None,
                          f - ResponseKeys))
  }

  /** `m` holds `key` exactly when `o` is present, and then its string. */
  predicate Holds(m: map<string, Json>, key: string, o: Option<string>) {
    (key in m <==> o.Some?) && (o.Some? ==> m[key] == JString(o.value))
  }

  /** A field written back as JSON: left out when absent. */
  function OptionalEntry(key: string, o: Option<string>): (m: map<string, Json>)
    ensures m.Keys <= {key} && Holds(m, key, o)
  {
    if o.Some? then map[key := JString(o.value)] else map[]
  }

  /** Writing the interpreted fields of a view back next to its `extra`
      fields, then taking the interpreted keys away, gives `extra` back. */
  lemma SplitFields(extra: map<string, Json>, named: map<string, Json>, keys: set<string>)
    requires extra.Keys !! keys && named.Keys <= keys
    ensures (extra + named) - keys == extra
    ensures forall k :: k in keys ==> (k in extra + named <==> k in named)
    ensures forall k :: k in named ==> (extra + named)[k] == named[k]
  {
  }

  /** The four link fields of a track as JSON. */
  function LinkFields(t: Track): (m: map<string, Json>)
    ensures m.Keys <= {"spotifyUrl", "previewUrl", "spotify_url", "preview_url"}
    ensures Holds(m, "spotifyUrl", t.spotifyUrl) && Holds(m, "previewUrl", t.previewUrl)
    ensures Holds(m, "spotify_url", t.spotify_url) && Holds(m, "preview_url", t.preview_url)
  {
    OptionalEntry("spotifyUrl", t.spotifyUrl) + OptionalEntry("previewUrl", t.previewUrl)
    + OptionalEntry("spotify_url", t.spotify_url) + OptionalEntry("preview_url", t.preview_url)
  }

  /** The title, artist and album of a track as JSON. */
  function HeadFields(t: Track): (m: map<string, Json>)
    ensures m.Keys <= {"title", "artist", "album"}
    ensures "title" in m && m["title"] == JString(t.title)
    ensures "artist" in m && m["artist"] == JString(t.artist)
    ensures Holds(m, "album", t.album)
  {
    map["title" := JString(t.title), "artist" := JString(t.artist)] + OptionalEntry("album", t.album)
  }

  /** The interpreted fields of a track as JSON. */
  function TrackFields(t: Track): (m: map<string, Json>)
    ensures m.Keys <= TrackKeys
    ensures "title" in m && m["title"] == JString(t.title)
    ensures "artist" in m && m["artist"] == JString(t.artist)
    ensures Holds(m, "album", t.album)
    ensures Holds(m, "spotifyUrl", t.spotifyUrl) && Holds(m, "previewUrl", t.previewUrl)
    ensures Holds(m, "spotify_url", t.spotify_url) && Holds(m, "preview_url", t.preview_url)
  {
    HeadFields(t) + LinkFields(t)
  }

  /** The JSON a track view is read from, absent fields left out: the
      reference the reading is checked against. */
  function TrackJson(t: Track): Json {
    JObject(t.extra + TrackFields(t))
  }

  /** The interpreted fields of a playlist as JSON. */
  function PlaylistFields(p: Playlist): (m: map<string, Json>)
    ensures m.Keys <= PlaylistKeys
    ensures Holds(m, "title", p.title) && Holds(m, "name", p.name)
    ensures Holds(m, "description", p.description)
    ensures "tracks" in m <==> p.tracks.Some?
    ensures p.tracks.Some? ==>
              && m["tracks"].JArray? && |m["tracks"].items| == |p.tracks.value|
              && forall i :: 0 <= i < |p.tracks.value| ==> m["tracks"].items[i] == TrackJson(p.tracks.value[i])
  {
    var tracks :=
      if p.tracks.Some? then
        map["tracks" := JArray(seq(|p.tracks.value|, i requires 0 <= i < |p.tracks.value| => TrackJson(p.tracks.value[i])))]
      else map[];
    OptionalEntry("title", p.title) + OptionalEntry("name", p.name)
    + OptionalEntry("description", p.description) + tracks
  }

  /** The JSON a playlist view is read from. */
  function PlaylistJson(p: Playlist): Json {
    JObject(p.extra + PlaylistFields(p))
  }

  /** The JSON a response view is read from. */
  function ResponseJson(r: KuromaResponse): Json {
    var playlist := if r.playlist.Some? then map["playlist" := PlaylistJson(r.playlist.value)] else map[];
    JObject(r.extra + (map["intent" := JString(r.intent)] + playlist))
  }

  /** Every key outside the interpreted ones lands in `extra`, so a view
      whose `extra` avoids those keys can be written back as JSON. */
  predicate TrackWellKeyed(t: Track) {
    t.extra.Keys !! TrackKeys
  }

  predicate PlaylistWellKeyed(p: Playlist) {
    && p.extra.Keys !! PlaylistKeys
    && (p.tracks.Some? ==> forall i :: 0 <= i < |p.tracks.value| ==> TrackWellKeyed(p.tracks.value[i]))
  }

  predicate WellKeyed(r: KuromaResponse) {
    r.extra.Keys !! ResponseKeys && (r.playlist.Some? ==> PlaylistWellKeyed(r.playlist.value))
  }

  /** Reading loses nothing: a track written as JSON reads back as itself. */
  lemma TrackRoundTrip(t: Track)
    requires TrackWellKeyed(t)
    ensures TrackFits(TrackJson(t)) && TrackView(TrackJson(t)) == t
  {
    SplitFields(t.extra, TrackFields(t), TrackKeys);
  }

  /** A playlist written as JSON reads back as itself. */
  lemma PlaylistRoundTrip(p: Playlist)
    requires PlaylistWellKeyed(p)
    ensures PlaylistFits(PlaylistJson(p)) && PlaylistView(PlaylistJson(p)) == p
  {
    var f := PlaylistJson(p).fields;
    SplitFields(p.extra, PlaylistFields(p), PlaylistKeys);
    if p.tracks.Some? {
      var items := f["tracks"].items;
      forall i | 0 <= i < |items|
        ensures TrackFits(items[i]) && TrackView(items[i]) == p.tracks.value[i]
      {
        TrackRoundTrip(p.tracks.value[i]);
      }
      assert PlaylistView(PlaylistJson(p)).tracks.value == p.tracks.value;
    }
  }

  /** A response written as JSON reads back as itself: `ResultView` keeps
      every field of the typed view. */
  lemma ResultRoundTrip(r: KuromaResponse)
    requires WellKeyed(r)
    ensures Fits(ResponseJson(r)) && ResultView(ResponseJson(r)) == Some(r)
  {
    var named := map["intent" := JString(r.intent)]
                 + (if r.playlist.Some? then map["playlist" := PlaylistJson(r.playlist.value)] else map[]);
    SplitFields(r.extra, named, ResponseKeys);
    if r.playlist.Some? {
      PlaylistRoundTrip(r.playlist.value);
    }
  }

  // ---------------------------------------------------------------------
  // Form submission

  /** The page's state: the prompt, whether a request is in flight, the
      error line (the runtime value of `data.error` or a fixed message), and
      the last result (`JNull` for none). */
  datatype State = State(prompt: string, loading: bool, error: Option<Json>, result: Json)

  const Initial: State := State("", false, None, JNull)

  /** Before the first submission the button is enabled and neither an error
      nor a result is shown. */
  lemma InitiallyIdle()
    ensures !SubmitDisabled(Initial)
    ensures Initial.prompt == "" && Initial.error.None? && Initial.result == JNull
    ensures ResultView(Initial.result).None? && RenderResult(ResultView(Initial.result)).None?
  {
  }

  /** The submit button is disabled while a request is in flight. */
  predicate SubmitDisabled(s: State) {
    s.loading
  }

  /** The state while the request is in flight. */
  function StartSubmit(s: State): (s': State)
    ensures s'.loading && SubmitDisabled(s')
    ensures s'.error.None? && s'.result == JNull
    ensures s'.prompt == s.prompt
  {
    s.(loading := true, error := None, result := JNull)
  }

  /** The state once `handleSubmit` has finished with outcome `d`. Reading
      `data.error` off a `null` body throws inside the `try`, which lands in
      the network-error branch like a failed fetch. */
  function Submit(s: State, d: Delivery): (s': State)
    ensures !s'.loading && !SubmitDisabled(s')
    ensures s'.prompt == s.prompt
    ensures s'.error.Some? <==> s'.result == JNull && !(d.Delivered? && d.data.Some? && IsOk(d.status) && d.data.value.JNull?)
    ensures d.FetchThrew? || d.data.None? ==> s'.error == Some(JString(NetworkError)) && s'.result == JNull
    ensures d.Delivered? && d.data.Some? && IsOk(d.status) ==> s'.error.None? && s'.result == d.data.value
    ensures d.Delivered? && d.data.Some? && !IsOk(d.status) ==>
              && s'.result == JNull
              && (d.data.value.JNull? ==> s'.error == Some(JString(NetworkError)))
              && (!d.data.value.JNull? ==>
                    s'.error == Some(OrElse(Member(d.data.value, "error"), JString(SomethingWentWrong))))
    ensures s'.error.Some? ==> Truthy(s'.error.value)
  {
    var s0 := StartSubmit(s);
    var failed := s0.(loading := false, error := Some(JString(NetworkError)));
    match d
    case FetchThrew => failed
    case Delivered(status, None) => failed
    case Delivered(status, Some(data)) =>
      if !IsOk(status) then
        match Member(data, "error")
        case Throws => failed
        case Undefined => s0.(loading := false, error := Some(JString(SomethingWentWrong)))
        case Value(e) => s0.(loading := false, error := Some(OrElse(Value(e), JString(SomethingWentWrong))))
      else
        s0.(loading := false, result := data)
  }

  /** The page's state reaches its render: after a 2xx answer of the typed
      shape the result section is shown, and after any failure (or a `null`
      answer) nothing is. */
  lemma SubmitThenRender(s: State, d: Delivery)
    requires d.Delivered? && d.data.Some? && IsOk(d.status) ==> d.data.value.JNull? || Fits(d.data.value)
    ensures var s' := Submit(s, d);
            && (s'.result.JNull? || Fits(s'.result))
            && (RenderResult(ResultView(s'.result)).Some? <==>
                  d.Delivered? && d.data.Some? && IsOk(d.status) && !d.data.value.JNull?)
            && (s'.error.Some? ==> RenderResult(ResultView(s'.result)).None?)
  {
  }
}

=== FILE: end_to_end.dfy ===
/**
 * The pages and the routes together: what each page ends up showing for
 * every reply its route can give. The route's reply reaches the page through
 * `NextResponse.json` and `res.json()`, which carry the JSON body unchanged.
 */
module EndToEnd {
  import opened JsValue
  import opened JsText
  import opened Http
  import IntentRoute
  import WaitlistRoute
  import DemoPage
  import WaitlistPage

  /** A route's reply as the page's `fetch` sees it. */
  function Deliver(r: Response): (d: Delivery)
    ensures d.Delivered? && d.status == r.status && d.data == Some(r.body)
  {
    Delivered(r.status, Some(r.body))
  }

  /** The waitlist page reports success exactly when the route saved the
      address; otherwise it shows the route's error string and keeps the
      email the user typed. */
  lemma WaitlistPageShowsRouteOutcome(s: WaitlistPage.State, env: WaitlistRoute.Env,
                                      body: Option<WaitlistRoute.Payload>, store: Upstream)
    ensures var h := WaitlistRoute.Post(env, body, store);
            var s' := WaitlistPage.Submit(s, Deliver(h.response));
            && (s'.status == WaitlistPage.Success <==> h.call.Some? && store.Responded? && IsOk(store.status))
            && (s'.status == WaitlistPage.Success ==> s'.email == "")
            && (s'.status == WaitlistPage.Error ==>
                  s'.message == JString(ErrorMessage(h.response.body).value) && s'.email == s.email)
  {
    var h := WaitlistRoute.Post(env, body, store);
    if h.response.status != 200 {
      var message := ErrorMessage(h.response.body).value;
      assert Member(h.response.body, "error") == Value(JString(message));
      assert Truthy(JString(message));
    }
  }

  /** The demo page holds the route's payload exactly when the route
      succeeded; otherwise it shows the route's error string and no result. */
  lemma DemoPageShowsRouteOutcome(s: DemoPage.State, env: IntentRoute.Env,
                                  body: Option<IntentRoute.RequestBody>, upstream: Upstream,
                                  decode: string -> Option<Json>)
    ensures var h := IntentRoute.Post(env, body, upstream, decode);
            var s' := DemoPage.Submit(s, Deliver(h.response));
            && !s'.loading
            && (h.response.status == 200 ==> s'.error.None? && s'.result == h.response.body)
            && (h.response.status != 200 ==>
                  s'.error == Some(JString(ErrorMessage(h.response.body).value)) && s'.result == JNull)
  {
    var h := IntentRoute.Post(env, body, upstream, decode);
    if h.response.status != 200 {
      var message := ErrorMessage(h.response.body).value;
      assert Member(h.response.body, "error") == Value(JString(message));
      assert Truthy(JString(message));
    }
  }

  /** A blank prompt never reaches the intent service, and the demo page
      shows "Prompt is required.". */
  lemma BlankPromptStaysLocal(s: DemoPage.State, env: IntentRoute.Env, prompt: string,
                              upstream: Upstream, decode: string -> Option<Json>)
    requires AllWhiteSpace(prompt)
    ensures var h := IntentRoute.Post(env, Some(IntentRoute.RequestBody(Some(prompt))), upstream, decode);
            && h.call.None?
            && DemoPage.Submit(s, Deliver(h.response)).error == Some(JString(IntentRoute.PromptRequiredError))
  {
  }

  /** An intent service that answers 2xx with JSON: the trimmed prompt is
      forwarded, the route returns that JSON unchanged, and the page holds it
      as its result. */
  lemma JsonAnswerReachesPage(s: DemoPage.State, env: IntentRoute.Env, prompt: string, status: int,
                              text: string, decode: string -> Option<Json>, payload: Json)
    requires !AllWhiteSpace(prompt)
    requires IsOk(status) && decode(text) == Some(payload)
    ensures var h := IntentRoute.Post(env, Some(IntentRoute.RequestBody(Some(prompt))),
                                      Responded(status, text), decode);
            && h.call.Some? && h.call.value.body.fields["text"] == JString(Trim(prompt))
            && h.response == Response(200, payload)
            && DemoPage.Submit(s, Deliver(h.response)).result == payload
  {
  }

  /** A decoded answer of the intent service: intent "playlist" and a
      playlist titled "Lofi" with one track. */
  const LofiTrack: Json := JObject(map["title" := JString("A"), "artist" := JString("B")])
  const LofiAnswer: Json :=
    JObject(map["intent" := JString("playlist"),
                "playlist" := JObject(map["title" := JString("Lofi"), "tracks" := JArray([LofiTrack])])])

  /** When the intent service answers with that JSON, the demo page stores it
      and renders the card titled "Lofi" with one line numbered 1 for the
      track, and no "no playlist" note. */
  lemma LofiPlaylistRenders(s: DemoPage.State, env: IntentRoute.Env, prompt: string, status: int,
                            text: string, decode: string -> Option<Json>)
    requires !AllWhiteSpace(prompt)
    requires IsOk(status) && decode(text) == Some(LofiAnswer)
    ensures var h := IntentRoute.Post(env, Some(IntentRoute.RequestBody(Some(prompt))),
                                      Responded(status, text), decode);
            && h.response == Response(200, LofiAnswer)
            && DemoPage.Submit(s, Deliver(h.response)).result == LofiAnswer
            && DemoPage.Fits(LofiAnswer)
            && var v := DemoPage.RenderResult(DemoPage.ResultView(LofiAnswer));
            && v.Some? && v.value.intent == "playlist"
            && v.value.card.Some? && !v.value.noPlaylistNote
            && v.value.card.value.title == "Lofi"
            && |v.value.card.value.rows| == 1
            && v.value.card.value.rows[0].number == 1
            && v.value.card.value.rows[0].title == "A"
            && v.value.card.value.rows[0].artist == "B"
  {
    JsonAnswerReachesPage(s, env, prompt, status, text, decode, LofiAnswer);
    LofiAnswerReads();
    LofiViewRenders();
  }

  /** The typed view the page reads off the lo-fi answer. */
  const LofiView: DemoPage.KuromaResponse :=
    DemoPage.KuromaResponse("playlist",
      Some(DemoPage.Playlist(Some("Lofi"), None, None,
                             Some([DemoPage.Track("A", "B", None, None, None, None, None, map[])]), map[])),
      map[])

  /** The lo-fi track, written as JSON, is the answer's track object. */
  lemma LofiTrackIsWritten()
    ensures DemoPage.TrackJson(LofiView.playlist.value.tracks.value[0]) == LofiTrack
  {
    var t := LofiView.playlist.value.tracks.value[0];
    assert DemoPage.LinkFields(t) == map[];
    assert DemoPage.HeadFields(t) == LofiTrack.fields;
  }

  /** The lo-fi playlist, written as JSON, is the answer's playlist object. */
  lemma LofiPlaylistIsWritten()
    ensures DemoPage.PlaylistJson(LofiView.playlist.value) == LofiAnswer.fields["playlist"]
  {
    var p := LofiView.playlist.value;
    LofiTrackIsWritten();
    var m := DemoPage.PlaylistFields(p);
    assert m["tracks"].items == [LofiTrack];
    assert m == LofiAnswer.fields["playlist"].fields;
  }

  /** The page reads the lo-fi answer as `LofiView`. */
  lemma LofiAnswerReads()
    ensures DemoPage.Fits(LofiAnswer) && DemoPage.ResultView(LofiAnswer) == Some(LofiView)
  {
    DemoPage.ResultRoundTrip(LofiView);
    LofiPlaylistIsWritten();
    assert DemoPage.ResponseJson(LofiView) == LofiAnswer;
  }

  /** `LofiView` renders its card with one numbered line. */
  lemma LofiViewRenders()
    ensures var v := DemoPage.RenderResult(Some(LofiView));
            && v.Some? && v.value.intent == "playlist"
            && v.value.card.Some? && !v.value.noPlaylistNote
            && v.value.card.value.title == "Lofi"
            && |v.value.card.value.rows| == 1
            && v.value.card.value.rows[0].number == 1
            && v.value.card.value.rows[0].title == "A"
            && v.value.card.value.rows[0].artist == "B"
  {
    assert ToLower("playlist") == "playlist";
  }

  /** An upper-case intent still selects the playlist, and a playlist that
      only carries the newer `name` field is titled by it. */
  lemma UpperCaseIntentWithName(name: string, tracks: seq<DemoPage.Track>)
    requires name != "" && |tracks| > 0
    ensures var view := DemoPage.KuromaResponse("PLAYLIST_FROM_PROMPT",
                          Some(DemoPage.Playlist(None, Some(name), None, Some(tracks), map[])), map[]);
            var v := DemoPage.RenderResult(Some(view));
            v.Some? && v.value.card.Some? && v.value.card.value.title == name
  {
    assert ToLower("PLAYLIST_FROM_PROMPT") == "playlist_from_prompt";
  }
}

=== FILE: http.dfy ===
/**
 * What the two route handlers exchange with the outside world, as plain
 * values: the response they return, the one outbound request each may make,
 * the answer the outbound call produced, and what a page's `fetch` sees.
 */
module Http {
  import opened JsValue

  /** `res.ok` of the Fetch API: the status is in the 2xx range. */
  predicate IsOk(status: int) {
    200 <= status <= 299
  }

  /** A reply built with `NextResponse.json(body, { status })`. */
  datatype Response = Response(status: int, body: Json)

  /** The `error` string of a reply body, if it carries one. */
  function ErrorMessage(body: Json): (r: Option<string>)
    ensures r.Some? <==> Member(body, "error").Value? && Member(body, "error").v.JString?
    ensures r.Some? ==> Member(body, "error") == Value(JString(r.value))
  {
    if body.JObject? && "error" in body.fields && body.fields["error"].JString? then
      Some(body.fields["error"].s)
    else
      None
  }

  /** The body `{ error: message }`. */
  function ErrorBody(message: string): (j: Json)
    ensures ErrorMessage(j) == Some(message)
    ensures j.JObject? && j.fields.Keys == {"error"}
  {
    JObject(map["error" := JString(message)])
  }

  /** A call to `fetch(url, { method, headers, body })`, `verb` being the method; the body is the
      value passed to `JSON.stringify`. */
  datatype OutboundRequest = OutboundRequest(verb: string, url: string, headers: map<string, string>, body: Json)

  /** What an outbound `fetch` produced: the call (or reading its body text)
      threw with a message, or the peer answered with a status and body text. */
  datatype Upstream = Unreachable(message: string) | Responded(status: int, text: string)

  /** The result of a route handler: the outbound request it made, if any,
      and the reply it returned. */
  datatype Handled = Handled(call: Option<OutboundRequest>, response: Response)

  /** What a page's `fetch(...)` followed by `res.json()` produced: the fetch
      threw, or a reply arrived whose body decoded (Some) or did not (None). */
  datatype Delivery = FetchThrew | Delivered(status: int, data: Option<Json>)
}

=== FILE: intent_route.dfy ===
/**
 * `POST /api/intent`: validates the caller's prompt, forwards it to the
 * Kuroma intent service, and returns that service's payload unchanged or an
 * error envelope. The environment, the parsed request body, the service's
 * answer and `JSON.parse` are parameters.
 */
module IntentRoute {
  import opened JsValue
  import opened JsText
  import opened Http

  const DefaultApiUrl: string := "https://ai.kuroma.in/chat"

  const InvalidBodyError: string := "Invalid request body (must be JSON)."
  const PromptRequiredError: string := "Prompt is required."
  const UpstreamFailedError: string := "Upstream Kuroma intent API failed"
  const ConnectError: string := "Failed to connect to Kuroma intent API."

  /** The two environment variables read when the module loads:
      KUROMA_INTENT_API_URL and KUROMA_INTENT_API_KEY. */
  datatype Env = Env(apiUrl: Option<string>, apiKey: Option<string>)

  /** The parsed request body; only `prompt` is read. */
  datatype RequestBody = RequestBody(prompt: Option<string>)

  /** `KUROMA_INTENT_API_URL ?? default`: an empty variable is kept. */
  function ApiUrl(env: Env): (url: string)
    ensures env.apiUrl.Some? ==> url == env.apiUrl.value
    ensures env.apiUrl.None? ==> url == DefaultApiUrl
  {
    Coalesce(env.apiUrl, Some(DefaultApiUrl)).value
  }

  /** `KUROMA_INTENT_API_KEY || ""`. */
  function ApiKey(env: Env): (key: string)
    ensures key != "" <==> NonEmpty(env.apiKey)
    ensures key != "" ==> key == env.apiKey.value
  {
    if NonEmpty(env.apiKey) then env.apiKey.value else ""
  }

  /** The call made to the intent service for a validated prompt. */
  function UpstreamRequest(env: Env, prompt: string): (r: OutboundRequest)
    ensures r.verb == "POST"
    ensures env.apiUrl.Some? ==> r.url == env.apiUrl.value
    ensures env.apiUrl.None? ==> r.url == DefaultApiUrl
    ensures r.headers.Keys <= {"Content-Type", "Authorization"}
    ensures "Content-Type" in r.headers && r.headers["Content-Type"] == "application/json"
    ensures "Authorization" in r.headers <==> NonEmpty(env.apiKey)
    ensures "Authorization" in r.headers ==> r.headers["Authorization"] == "Bearer " + env.apiKey.value
    ensures r.body.JObject? && r.body.fields.Keys == {"text"}
    ensures r.body.fields["text"] == JString(prompt)
  {
    var key := ApiKey(env);
    var auth := if key != "" then map["Authorization" := "Bearer " + key] else map[];
    OutboundRequest("POST", ApiUrl(env), map["Content-Type" := "application/json"] + auth,
                    JObject(map["text" := JString(prompt)]))
  }

  /** `JSON.parse(text)`, falling back to the text itself when it is not
      JSON. */
  function DecodeOrRaw(text: string, decode: string -> Option<Json>): (payload: Json)
    ensures decode(text).Some? ==> payload == decode(text).value
    ensures decode(text).None? ==> payload == JString(text)
  {
    match decode(text)
    case Some(j) => j
    case None => JString(text)
  }

  /** The reply for the intent service's answer. */
  function ReplyTo(upstream: Upstream, decode: string -> Option<Json>): (r: Response)
    ensures r.status in {200, 500, 502}
    ensures r.status == 200 <==> upstream.Responded? && IsOk(upstream.status)
    ensures upstream.Responded? && IsOk(upstream.status) ==>
              r.body == DecodeOrRaw(upstream.text, decode)
    ensures upstream.Responded? && !IsOk(upstream.status) ==>
              && r.status == 502
              && r.body.JObject? && r.body.fields.Keys == {"error", "status", "upstream"}
              && ErrorMessage(r.body) == Some(UpstreamFailedError)
              && Member(r.body, "status") == Value(JNumber(upstream.status as real))
              && Member(r.body, "upstream") == Value(DecodeOrRaw(upstream.text, decode))
    ensures upstream.Unreachable? ==>
              && r.status == 500
              && r.body.JObject? && r.body.fields.Keys == {"error", "details"}
              && ErrorMessage(r.body) == Some(ConnectError)
              && Member(r.body, "details") == Value(JString(upstream.message))
  {
    match upstream
    case Unreachable(message) =>
      Response(500, JObject(map["error" := JString(ConnectError), "details" := JString(message)]))
    case Responded(status, text) =>
      var payload := DecodeOrRaw(text, decode);
      if !IsOk(status) then
        Response(502, JObject(map["error" := JString(UpstreamFailedError),
                                  "status" := JNumber(status as real),
                                  "upstream" := payload]))
      else
        Response(200, payload)
  }

  /** The handler. `body` is None when the request body is not JSON;
      `upstream` is the intent service's answer to the call in the result,
      consulted only when that call is made. */
  function Post(env: Env, body: Option<RequestBody>, upstream: Upstream,
                decode: string -> Option<Json>): (r: Handled)
    ensures body.None? ==>
              r == Handled(None, Response(400, ErrorBody(InvalidBodyError)))
    ensures body.Some? && (body.value.prompt.None? || AllWhiteSpace(body.value.prompt.value)) ==>
              r == Handled(None, Response(400, ErrorBody(PromptRequiredError)))
    ensures body.Some? && body.value.prompt.Some? && !AllWhiteSpace(body.value.prompt.value) ==>
              && r.call == Some(UpstreamRequest(env, Trim(body.value.prompt.value)))
              && r.response == ReplyTo(upstream, decode)
    ensures r.call.None? <==> r.response.status == 400
    ensures r.response.status in {200, 400, 500, 502}
    ensures r.response.status != 200 ==>
              && ErrorMessage(r.response.body).Some?
              && ErrorMessage(r.response.body).value in
                   {InvalidBodyError, PromptRequiredError, UpstreamFailedError, ConnectError}
  {
    match body
    case None =>
      Handled(None, Response(400, ErrorBody(InvalidBodyError)))
    case Some(b) =>
      match RequiredTrimmed(b.prompt)
      case None => Handled(None, Response(400, ErrorBody(PromptRequiredError)))
      case Some(prompt) => Handled(Some(UpstreamRequest(env, prompt)), ReplyTo(upstream, decode))
  }

  /** A reply that is not JSON never causes an error on its own: a 2xx answer
      with undecodable text is passed through as that text, with status 200. */
  lemma NonJsonReplyPassesThrough(env: Env, b: RequestBody, status: int, text: string,
                                  decode: string -> Option<Json>)
    requires b.prompt.Some? && !AllWhiteSpace(b.prompt.value)
    requires IsOk(status) && decode(text).None?
    ensures Post(env, Some(b), Responded(status, text), decode).response == Response(200, JString(text))
  {
  }

  /** The prompt is forwarded trimmed: surrounding white space never changes
      the outbound call or the reply. */
  lemma SurroundingWhiteSpaceIgnored(env: Env, pre: string, prompt: string, post: string,
                                     upstream: Upstream, decode: string -> Option<Json>)
    requires AllWhiteSpace(pre) && AllWhiteSpace(post)
    requires prompt != [] && !IsWhiteSpace(prompt[0]) && !IsWhiteSpace(prompt[|prompt| - 1])
    ensures Post(env, Some(RequestBody(Some(pre + prompt + post))), upstream, decode)
         == Post(env, Some(RequestBody(Some(prompt))), upstream, decode)
  {
    var padded := pre + prompt + post;
    TrimOfPadded(pre, prompt, post);
    TrimOfPadded([], prompt, []);
    assert [] + prompt + [] == prompt;
    var expected := Handled(Some(UpstreamRequest(env, prompt)), ReplyTo(upstream, decode));
    assert RequiredTrimmed(Some(padded)) == Some(prompt);
    assert Post(env, Some(RequestBody(Some(padded))), upstream, decode) == expected;
    assert RequiredTrimmed(Some(prompt)) == Some(prompt);
    assert Post(env, Some(RequestBody(Some(prompt))), upstream, decode) == expected;
  }
}

=== FILE: js_text.dfy ===
/**
 * The string operations of the JavaScript runtime that the handlers and the
 * demo page apply: `String.prototype.trim` and `String.prototype.toLowerCase`,
 * plus the `field?.trim()` / `if (!field)` idiom both routes use for required fields.
 */
module JsText {
  import opened JsValue

  /** The WhiteSpace and LineTerminator code points that `trim` removes
      (sections 12.2 and 12.3 of ECMAScript 2023): tab, line feed, vertical
      tab, form feed, carriage return, the space separators of category Zs,
      the line and paragraph separators and the byte-order mark. */
  predicate IsWhiteSpace(c: char) {
    var n := c as int;
    || 0x09 <= n <= 0x0D || n == 0x20 || n == 0xA0 || n == 0x1680
    || 0x2000 <= n <= 0x200A || n == 0x2028 || n == 0x2029 || n == 0x202F || n == 0x205F
    || n == 0x3000 || n == 0xFEFF
  }

  predicate AllWhiteSpace(s: string) {
    forall i :: 0 <= i < |s| ==> IsWhiteSpace(s[i])
  }

  /** `s` without its leading white space: a suffix of `s`, preceded only by
      white space, that is empty or starts with a non-white-space character. */
  function TrimStart(s: string): (r: string)
    ensures |r| <= |s| && r == s[|s| - |r|..]
    ensures AllWhiteSpace(s[..|s| - |r|])
    ensures r == [] || !IsWhiteSpace(r[0])
    decreases |s|
  {
    if |s| > 0 && IsWhiteSpace(s[0]) then
      var tail := s[1..];
      var r := TrimStart(tail);
      assert r == s[|s| - |r|..] by {
        assert tail[|tail| - |r|..] == s[|s| - |r|..];
      }
      assert AllWhiteSpace(s[..|s| - |r|]) by {
        forall i | 0 <= i < |s| - |r|
          ensures IsWhiteSpace(s[i])
        {
          if 0 < i {
            assert s[i] == tail[..|tail| - |r|][i - 1];
          }
        }
      }
      r
    else
      s
  }

  /** `s` without its trailing white space: a prefix of `s`, followed only by
      white space, that is empty or ends with a non-white-space character. */
  function TrimEnd(s: string): (r: string)
    ensures |r| <= |s| && r == s[..|r|]
    ensures AllWhiteSpace(s[|r|..])
    ensures r == [] || !IsWhiteSpace(r[|r| - 1])
    decreases |s|
  {
    if |s| > 0 && IsWhiteSpace(s[|s| - 1]) then
      var init := s[..|s| - 1];
      var r := TrimEnd(init);
      assert r == s[..|r|] by {
        assert init[..|r|] == s[..|r|];
      }
      assert AllWhiteSpace(s[|r|..]) by {
        forall i | |r| <= i < |s|
          ensures IsWhiteSpace(s[i])
        {
          if i < |s| - 1 {
            assert s[i] == init[|r|..][i - |r|];
          }
        }
      }
      r
    else
      s
  }

  /** The number of white-space characters `trim` removes from the front. */
  function LeadingWhiteSpace(s: string): (k: nat)
    ensures k <= |s|
  {
    |s| - |TrimStart(s)|
  }

  /** `s.trim()`: white space removed from both ends. What is left is empty
      or begins and ends with a non-white-space character. */
  function Trim(s: string): (r: string)
    ensures |r| <= |s|
    ensures r == [] || (!IsWhiteSpace(r[0]) && !IsWhiteSpace(r[|r| - 1]))
  {
    var t := TrimStart(s);
    var r := TrimEnd(t);
    assert r == [] || r[0] == t[0];
    r
  }

  /** `trim` removes only white space: its result is the slice of `s` that
      starts after the leading white space, with only white space after it. */
  lemma TrimIsSlice(s: string)
    ensures LeadingWhiteSpace(s) + |Trim(s)| <= |s|
    ensures Trim(s) == s[LeadingWhiteSpace(s)..LeadingWhiteSpace(s) + |Trim(s)|]
    ensures AllWhiteSpace(s[..LeadingWhiteSpace(s)])
    ensures AllWhiteSpace(s[LeadingWhiteSpace(s) + |Trim(s)|..])
  {
    var t := TrimStart(s);
    var r := TrimEnd(t);
    var k := LeadingWhiteSpace(s);
    SliceOfSuffix(s, k, |r|);
  }

  lemma SliceOfSuffix(s: string, k: nat, n: nat)
    requires k + n <= |s|
    ensures s[k..][..n] == s[k..k + n]
    ensures s[k..][n..] == s[k + n..]
  {
  }

  /** Trimming yields the empty string exactly when the input is all white
      space (the empty string included). */
  lemma {:induction false} TrimEmptyIffBlank(s: string)
    ensures Trim(s) == [] <==> AllWhiteSpace(s)
  {
    var t := TrimStart(s);
    var k := |s| - |t|;
    if TrimEnd(t) == [] {
      // TrimEnd(t) is empty only if t is blank, and a non-empty t starts
      // with a non-blank: so t is empty and all of s was leading white space.
      assert t[0..] == t;
      assert t == [];
      assert s[..k] == s;
    } else {
      assert !IsWhiteSpace(s[k]) by {
        assert TrimEnd(t)[0] == t[0] == s[k];
      }
    }
  }

  lemma {:induction false} TrimStartOfPadded(pre: string, s: string)
    requires AllWhiteSpace(pre)
    requires s == [] || !IsWhiteSpace(s[0])
    ensures TrimStart(pre + s) == s
    decreases |pre|
  {
    if pre == [] {
      assert pre + s == s;
    } else {
      assert (pre + s)[1..] == pre[1..] + s;
      TrimStartOfPadded(pre[1..], s);
    }
  }

  lemma {:induction false} TrimEndOfPadded(s: string, post: string)
    requires AllWhiteSpace(post)
    requires s == [] || !IsWhiteSpace(s[|s| - 1])
    ensures TrimEnd(s + post) == s
    decreases |post|
  {
    if post == [] {
      assert s + post == s;
    } else {
      var last := |post| - 1;
      assert (s + post)[..|s + post| - 1] == s + post[..last];
      TrimEndOfPadded(s, post[..last]);
    }
  }

  /** Trimming undoes padding: white space added around a string that neither
      begins nor ends with white space is exactly what `trim` removes. */
  lemma TrimOfPadded(pre: string, s: string, post: string)
    requires AllWhiteSpace(pre) && AllWhiteSpace(post)
    requires s == [] || (!IsWhiteSpace(s[0]) && !IsWhiteSpace(s[|s| - 1]))
    ensures Trim(pre + s + post) == s
  {
    if s == [] {
      assert pre + s + post == pre + post;
      assert AllWhiteSpace(pre + post);
      TrimEmptyIffBlank(pre + post);
    } else {
      assert pre + s + post == pre + (s + post);
      TrimStartOfPadded(pre, s + post);
      TrimEndOfPadded(s, post);
    }
  }

  /** `field?.trim()` followed by `if (!trimmed)`: the trimmed value of a
      present field whose trimmed value is non-empty, and None for an absent
      field or one that trims to the empty string. */
  function RequiredTrimmed(field: Option<string>): (r: Option<string>)
    ensures r.None? <==> field.None? || AllWhiteSpace(field.value)
    ensures r.Some? ==> r.value == Trim(field.value) && r.value != []
  {
    match field
    case None => None
    case Some(s) =>
      TrimEmptyIffBlank(s);
      var t := Trim(s);
      if t == [] then None else Some(t)
  }

  /** `c.toLowerCase()` for ASCII letters; every other character is left
      as it is. */
  function LowerChar(c: char): char {
    if 'A' <= c <= 'Z' then (c as int + 32) as char else c
  }

  predicate IsAsciiUpper(c: char) {
    'A' <= c <= 'Z'
  }

  /** `s.toLowerCase()` restricted to ASCII case folding: the same length,
      each character folded, and no upper-case ASCII letter left. */
  function ToLower(s: string): (r: string)
    ensures |r| == |s|
    ensures forall i :: 0 <= i < |s| ==> r[i] == LowerChar(s[i])
    ensures forall i :: 0 <= i < |r| ==> !IsAsciiUpper(r[i])
  {
    seq(|s|, i requires 0 <= i < |s| => LowerChar(s[i]))
  }
}

=== FILE: js_value.dfy ===
/**
 * The JavaScript value semantics that the route handlers and the pages rely
 * on: JSON values, truthiness, the nullish-coalescing operator `??`, the
 * logical-or default `a || b`, and reading a property off a decoded value.
 */
module JsValue {

  /** `null`/`undefined` (None) or a present value (Some). The source's
      optional fields (`x?: T`, `T | null`) are treated identically by every
      operator it applies to them (`??`, `?.`, truthiness), so the two
      absent forms share one constructor here. */
  datatype Option<+T> = None | Some(value: T)

  /** A decoded JSON value. Objects are maps: no operation modelled here
      depends on the order of keys (only the page's raw `JSON.stringify`
      dump shows it, and that dump is not modelled). */
  datatype Json =
    | JNull
    | JBool(b: bool)
    | JNumber(n: real)
    | JString(s: string)
    | JArray(items: seq<Json>)
    | JObject(fields: map<string, Json>)

  /** JavaScript truthiness of a JSON value (JSON has no NaN, so a number is
      falsy exactly when it is zero). */
  predicate Truthy(j: Json) {
    match j
    case JNull => false
    case JBool(b) => b
    case JNumber(n) => n != 0.0
    case JString(s) => s != ""
    case JArray(_) => true
    case JObject(_) => true
  }

  /** Truthiness of an optional string: present and non-empty. */
  predicate NonEmpty(o: Option<string>) {
    o.Some? && o.value != ""
  }

  /** The nullish-coalescing operator `a ?? b`: the left operand unless it is
      null or undefined. */
  function Coalesce<T>(a: Option<T>, b: Option<T>): (r: Option<T>)
    ensures r.Some? <==> a.Some? || b.Some?
    ensures a.Some? ==> r == a
    ensures a.None? ==> r == b
  {
    match a
    case Some(_) => a
    case None => b
  }

  /** The outcome of reading `value.key`: a TypeError (reading a property of
      `null`), `undefined`, or a value. */
  datatype Access = Throws | Undefined | Value(v: Json)

  /** The keys read off decoded values: `error`, which both pages read from
      a route's reply, and `status`, `upstream` and `details`, which only the
      contracts describing the intent route's error bodies read back. None of
      them is a property that a string, number, boolean, array or plain
      object inherits, so a read of one is `undefined` unless an object
      carries it (unlike, say, `length` or `constructor`). */
  predicate ReadKey(key: string) {
    key in {"error", "status", "upstream", "details"}
  }

  /** `j[key]` for one of those keys. Only `null` makes the read throw. */
  function Member(j: Json, key: string): (r: Access)
    requires ReadKey(key)
    ensures r.Throws? <==> j.JNull?
    ensures r.Value? <==> j.JObject? && key in j.fields
    ensures r.Value? ==> r.v == j.fields[key]
  {
    match j
    case JNull => Throws
    case JObject(fields) => if key in fields then Value(fields[key]) else Undefined
    case _ => Undefined
  }

  /** `a || fallback` for a property read that did not throw: the read value
      when it is truthy, otherwise the fallback. */
  function OrElse(a: Access, fallback: Json): (r: Json)
    requires !a.Throws?
    ensures a.Value? && Truthy(a.v) ==> r == a.v
    ensures !(a.Value? && Truthy(a.v)) ==> r == fallback
    ensures Truthy(fallback) ==> Truthy(r)
  {
    match a
    case Value(v) => if Truthy(v) then v else fallback
    case Undefined => fallback
  }
}

=== FILE: waitlist_page.dfy ===
/**
 * The waitlist page: its form submission moves the page between the statuses
 * idle, loading, success and error, sets the message line, and clears the
 * email field only when the address was saved.
 */
module WaitlistPage {
  import opened JsValue
  import opened Http

  const SomethingWentWrong: string := "Something went wrong. Try again."
  const Saved: string := "You\U{2019}re on the list. Thank you!"
  const NetworkError: string := "Network error. Check your connection and try again."

  datatype Status = Idle | Loading | Success | Error

  /** The page's state: the email field, the status, and the message line
      (the runtime value of `data.error` or a fixed message; empty is
      `JString("")`). */
  datatype State = State(email: string, status: Status, message: Json)

  const Initial: State := State("", Idle, JString(""))

  /** The submit button is disabled while a request is in flight. */
  predicate SubmitDisabled(s: State) {
    s.status == Loading
  }

  /** The message line is rendered when the message is truthy. */
  predicate MessageShown(s: State) {
    Truthy(s.message)
  }

  /** Before the first submission the field is empty, the button is enabled
      and no message is shown. */
  lemma InitiallyIdle()
    ensures Initial.email == "" && Initial.status == Idle
    ensures !SubmitDisabled(Initial) && !MessageShown(Initial)
  {
  }

  /** The state while the request is in flight. */
  function StartSubmit(s: State): (s': State)
    ensures s'.status == Loading && SubmitDisabled(s')
    ensures s'.message == JString("") && !MessageShown(s')
    ensures s'.email == s.email
  {
    s.(status := Loading, message := JString(""))
  }

  /** The state once `handleSubmit` has finished with outcome `d`. A fetch
      that throws, a body that is not JSON and a `null` body (reading
      `data.error` off it throws) all land in the network-error branch. */
  function Submit(s: State, d: Delivery): (s': State)
    ensures s'.status in {Success, Error} && !SubmitDisabled(s')
    ensures s'.status == Success <==> d.Delivered? && d.data.Some? && IsOk(d.status)
    ensures s'.status == Success ==> s'.email == "" && s'.message == JString(Saved)
    ensures s'.status == Error ==> s'.email == s.email
    ensures d.FetchThrew? || d.data.None? ==> s'.message == JString(NetworkError)
    ensures d.Delivered? && d.data.Some? && !IsOk(d.status) ==>
              && (d.data.value.JNull? ==> s'.message == JString(NetworkError))
              && (!d.data.value.JNull? ==>
                    s'.message == OrElse(Member(d.data.value, "error"), JString(SomethingWentWrong)))
    ensures MessageShown(s')
  {
    var s0 := StartSubmit(s);
    var failed := s0.(status := Error, message := JString(NetworkError));
    match d
    case FetchThrew => failed
    case Delivered(status, None) => failed
    case Delivered(status, Some(data)) =>
      if !IsOk(status) then
        match Member(data, "error")
        case Throws => failed
        case Undefined => s0.(status := Error, message := JString(SomethingWentWrong))
        case Value(e) => s0.(status := Error, message := OrElse(Value(e), JString(SomethingWentWrong)))
      else
        s0.(status := Success, message := JString(Saved), email := "")
  }
}

=== FILE: waitlist_route.dfy ===
/**
 * `POST /api/waitlist`: validates an email address and inserts it into the
 * waitlist table of the store. Checks run in a fixed order (JSON, email
 * present, email shape, configuration), and the store's own reply is never
 * shown to the caller. The environment, the parsed request body and the
 * store's answer are parameters.
 */
module WaitlistRoute {
  import opened JsValue
  import opened JsText
  import opened Http

  const InvalidJsonError: string := "Invalid JSON"
  const EmailRequiredError: string := "Email is required"
  const InvalidEmailError: string := "Enter a valid email"
  const MisconfiguredError: string := "Server misconfigured. Try again later."
  const SaveFailedError: string := "Could not save your email. Try again later."
  const UnreachableError: string := "Could not reach database. Try again later."

  const TablePath: string := "/rest/v1/waitlist"

  /** The two environment variables read when the module loads:
      NEXT_PUBLIC_SUPABASE_URL and SUPABASE_SERVICE_KEY. */
  datatype Env = Env(storeUrl: Option<string>, serviceKey: Option<string>)

  /** The parsed request body; only `email` is read. */
  datatype Payload = Payload(email: Option<string>)

  /** The body `{ success: true }` of a saved signup. */
  const SuccessBody: Json := JObject(map["success" := JBool(true)])

  /** The minimal shape check, `String.prototype.includes` on a single
      character twice: the address contains an `@` and a `.` somewhere (not
      a full address grammar). */
  predicate LooksLikeEmail(email: string) {
    '@' in email && '.' in email
  }

  /** Both variables are set and non-empty. */
  predicate Configured(env: Env) {
    NonEmpty(env.storeUrl) && NonEmpty(env.serviceKey)
  }

  /** The insert sent to the store for a validated address. */
  function InsertRequest(env: Env, email: string): (r: OutboundRequest)
    requires Configured(env)
    ensures r.verb == "POST"
    ensures r.url == env.storeUrl.value + TablePath
    ensures r.headers.Keys == {"apikey", "Authorization", "Content-Type", "Prefer"}
    ensures r.headers["apikey"] == env.serviceKey.value
    ensures r.headers["Authorization"] == "Bearer " + env.serviceKey.value
    ensures r.headers["Content-Type"] == "application/json"
    ensures r.headers["Prefer"] == "return=minimal"
    ensures r.body.JObject? && r.body.fields.Keys == {"email"}
    ensures r.body.fields["email"] == JString(email)
  {
    var key := env.serviceKey.value;
    OutboundRequest("POST", env.storeUrl.value + TablePath,
                    map["apikey" := key, "Authorization" := "Bearer " + key,
                        "Content-Type" := "application/json", "Prefer" := "return=minimal"],
                    JObject(map["email" := JString(email)]))
  }

  /** The reply for the store's answer to the insert. Only the status of the
      answer is consulted; its text is logged, never returned. */
  function ReplyTo(store: Upstream): (r: Response)
    ensures r.status in {200, 500}
    ensures r.status == 200 <==> store.Responded? && IsOk(store.status)
    ensures r.status == 200 ==> r.body == SuccessBody
    ensures store.Responded? && !IsOk(store.status) ==> r.body == ErrorBody(SaveFailedError)
    ensures store.Unreachable? ==> r.body == ErrorBody(UnreachableError)
  {
    match store
    case Unreachable(_) => Response(500, ErrorBody(UnreachableError))
    case Responded(status, _) =>
      if !IsOk(status) then Response(500, ErrorBody(SaveFailedError))
      else Response(200, SuccessBody)
  }

  /** The handler. `body` is None when the request body is not JSON; `store`
      is the store's answer to the call in the result, consulted only when
      that call is made. */
  function Post(env: Env, body: Option<Payload>, store: Upstream): (r: Handled)
    ensures body.None? ==>
              r == Handled(None, Response(400, ErrorBody(InvalidJsonError)))
    ensures body.Some? && (body.value.email.None? || AllWhiteSpace(body.value.email.value)) ==>
              r == Handled(None, Response(400, ErrorBody(EmailRequiredError)))
    ensures body.Some? && body.value.email.Some? && !AllWhiteSpace(body.value.email.value) ==>
              var email := Trim(body.value.email.value);
              && (!LooksLikeEmail(email) ==> r == Handled(None, Response(400, ErrorBody(InvalidEmailError))))
              && (LooksLikeEmail(email) && !Configured(env) ==>
                    r == Handled(None, Response(500, ErrorBody(MisconfiguredError))))
              && (LooksLikeEmail(email) && Configured(env) ==>
                    r.call == Some(InsertRequest(env, email)) && r.response == ReplyTo(store))
    ensures r.call.Some? ==> Configured(env)
    ensures r.response.status in {200, 400, 500}
    ensures r.response.status == 200 <==> r.call.Some? && store.Responded? && IsOk(store.status)
    ensures r.response.status == 200 ==> r.response.body == SuccessBody
    ensures r.response.status != 200 ==>
              && ErrorMessage(r.response.body).Some?
              && ErrorMessage(r.response.body).value in
                   {InvalidJsonError, EmailRequiredError, InvalidEmailError,
                    MisconfiguredError, SaveFailedError, UnreachableError}
  {
    match body
    case None =>
      Handled(None, Response(400, ErrorBody(InvalidJsonError)))
    case Some(b) =>
      match RequiredTrimmed(b.email)
      case None => Handled(None, Response(400, ErrorBody(EmailRequiredError)))
      case Some(email) =>
        if !LooksLikeEmail(email) then
          Handled(None, Response(400, ErrorBody(InvalidEmailError)))
        else if !Configured(env) then
          Handled(None, Response(500, ErrorBody(MisconfiguredError)))
        else
          Handled(Some(InsertRequest(env, email)), ReplyTo(store))
  }

  /** The shape check runs before the configuration check: an address that
      fails it is refused identically whatever the configuration and the
      store would have said, and nothing is sent. */
  lemma BadEmailIgnoresConfiguration(env1: Env, env2: Env, email: string,
                                     store1: Upstream, store2: Upstream)
    requires !AllWhiteSpace(email) && !LooksLikeEmail(Trim(email))
    ensures Post(env1, Some(Payload(Some(email))), store1)
         == Post(env2, Some(Payload(Some(email))), store2)
         == Handled(None, Response(400, ErrorBody(InvalidEmailError)))
  {
  }

  /** The store's reply text never reaches the caller: two answers with the
      same status produce the same reply. */
  lemma StoreTextNeverEchoed(env: Env, body: Option<Payload>, status: int, text1: string, text2: string)
    ensures Post(env, body, Responded(status, text1)) == Post(env, body, Responded(status, text2))
  {
  }
}
